=== FILE: README.md ===
# ftag `Transform` in Dafny

A model of the `Transform` object of `ftag/transform.py`. This is a per-batch field transformer for batches of structured numpy arrays, keyed by group name ("jets", "tracks", ...). A `Transform` is built once from four optional tables. Each call then runs four stages in a fixed order:

1. **integer remap** (`map_ints`): integer codes in configured fields are rewritten, one `old -> new` pair after another;
2. **float recompute** (`map_floats`): a named elementwise numpy function is applied to configured fields;
3. **default insertion** (`insert_variables`): missing fields are appended, filled with a constant default; the storage type is chosen from the default's Python type;
4. **renaming** (`map_variables` / `map_dtype`): fields are renamed per group, and a rename whose source and target names both exist is rejected.

The object also has a pure helper, `map_variable_names`, that translates a list of field names forward, or backward through the inverse table.

Layout:

- `results.dfy`: `Option` and `Result`, the latter standing for a raised exception.
- `dicts.dfy`: Python dicts as association lists in insertion order.
  - `Get` is `dict.get`.
  - `Put` is `d[k] = v`.
  - `Swap` is `{v: k for k, v in d.items()}`.
- `batches.dfy`: the batch, its groups, dtypes and values, the Python default values, and the error kinds.
- `config.dfy`: the raw and the normalised configuration (`__post_init__`).
- `remap.dfy`, `floats.dfy`, `insert.dfy`, `rename.dfy`: one module per stage.
- `pipeline.dfy`: `__call__`.
- `scenarios.dfy`: three worked examples.

Representation choices:

- A group is a `Group(schema, columns, count)`. `schema` is the structured dtype, a list of `Spec(name, dtype)`. There is one column of `Scalar` values per field. A well-formed group has distinct names and columns of length `count`. A group is `Typed` when every value fits its field's storage type: booleans in `b1`, floats in `f4`, integers in `i4`. The integer remap, insertion and renaming keep a batch typed.
- Configuration tables are association lists, so dict order is kept. That order matters in several places:
  - remap pairs chain in table order;
  - `insert_variables` appends new fields in table order;
  - the inverse table puts each entry where its value first occurs, and maps it to the last key carrying it;
  - every error is the first one met in table order: the first unknown function name, the first unsupported default, the first missing float field, and the first group whose rename fails.
- `map_ints` compares and stores the way numpy does on each kind of element:
  - a boolean compares as 0 or 1, and storing `k` into it gives `k != 0`;
  - a float compares with `x == old` and stores `new` as a float.
- The remap is modelled **as written**: sequential, so chaining is possible. `{1: 2, 2: 3}` sends 1 to 3. `SinglePass` is the conflict-free substitution one might have expected instead:
  - `ChainFreeAgrees` proves the two agree when no pair writes a later pair's key;
  - `ChainingDiffersFromSinglePass` shows an input where they differ.

  It is not clear that the authors meant to avoid chaining, so this is flagged here rather than claimed as a defect.
- After renaming, a dtype with a repeated field name is a separate error, `DuplicateName`. This is what numpy's dtype constructor does. An example is `{a: c, b: c}` with `a` and `b` present and `c` absent; the collision check does not catch it. `InjectiveRenameSucceeds` proves this error cannot happen when the group's table is injective.
- The round trip of `map_variable_names` does not hold for every list, even with an injective table. Forward then inverse returns a name exactly when the table renames it or never renames anything to it (`RoundTrip`). So names the table never mentions come back, but a name that is only a rename target does not: it passes through forward and is then translated to the key renamed to it. Inverse then forward returns a name exactly when it is a rename target or is not renamed (`RoundTripInverseFirst`).

## Model

| member | source | states |
|---|---|---|
| `Config.Normalise` | ftag/transform.py:20-31 | construction succeeds exactly when every float function name resolves; an absent table becomes empty; the inverse rename table is consistent with the forward one; on failure the error names an unresolvable function |
| `Config.InvertTables` | ftag/transform.py:22-24 | one inverse entry per group, in the same order and under the same group name |
| `Config.GetInverted` | ftag/transform.py:22-24 | looking a group up in the inverse table gives the swap of its forward table, and misses exactly when the forward lookup misses |
| `Config.FirstUnknown` | ftag/transform.py:29-31 | no name is reported exactly when all names resolve; a reported name is configured and does not resolve |
| `Config.FirstUnknownIn` | ftag/transform.py:30-31 | the same, for the functions of one group |
| `Dicts.GetHits` | ftag/transform.py:175 | `dict.get` hits exactly when the key is present and returns the value of an entry with that key |
| `Dicts.GetOfDict` | ftag/transform.py:175 | in a dict with distinct keys, looking up an entry's key returns that entry's value |
| `Dicts.Put` | ftag/transform.py:23 | after `d[k] = v`, `k` maps to `v`, every other key keeps its lookup, and a new key is appended last |
| `Dicts.PutKeys` | ftag/transform.py:23 | `d[k] = v` adds `k` to the keys, removes none, and keeps the keys distinct |
| `Dicts.PutKeepsDict` | ftag/transform.py:23 | `d[k] = v` keeps the keys distinct |
| `Dicts.Swap` | ftag/transform.py:23 | the inverse table has distinct keys, namely the forward values; each value maps back to the last key that carried it |
| `Dicts.SwapOfInjective` | ftag/transform.py:22-24 | for an injective forward table, the inverse is exactly the swapped table, with the same number of entries in the same order |
| `Dicts.InverseOfInjective` | ftag/transform.py:22-24 | for an injective table, every forward pair `old -> new` gives `inv[new] == old` |
| `Batches.IndexOf` | ftag/transform.py:133 | `arr[name]` selects the first (and, in a dtype, the only) field called `name` |
| `IntRemap.RemapColumn` | ftag/transform.py:133-135 | rewriting the whole column pair by pair equals applying the pairs in order to each element; the length is kept |
| `IntRemap.RemapField` | ftag/transform.py:131-135 | only the column of the named field changes; if the field is absent, nothing changes; dtype and record count are kept |
| `IntRemap.RemapGroup` | ftag/transform.py:130-135 | with distinct field names in the table, each configured field's column is remapped by its own pairs and every other column is unchanged |
| `IntRemap.MapInts` | ftag/transform.py:126-136 | group keys, dtypes and record counts are kept; a group no table names is unchanged |
| `IntRemap.MapIntsRemaps` | ftag/transform.py:126-136 | with one table per group, a group the batch holds is remapped exactly as `RemapGroup` says for its table, and kept when it has none |
| `IntRemap.RemapGroupKeepsTyped` | ftag/transform.py:130-135 | rewriting a group's fields keeps every value fitting its field's type: a written code is stored in the element's own kind |
| `IntRemap.MapIntsKeepsTyped` | ftag/transform.py:126-136 | a typed batch stays typed under `map_ints` |
| `IntRemap.UnmatchedUnchanged` | ftag/transform.py:134-135 | a value no `old` key matches is unchanged |
| `IntRemap.RemapKeepsKind` | ftag/transform.py:135 | remapping never changes an element's storage kind |
| `IntRemap.ChainFreeAgrees` | ftag/transform.py:134-135 | when no pair writes a later pair's key, the sequential loop equals the single-pass substitution on integer and float elements |
| `IntRemap.ChainingDiffersFromSinglePass` | ftag/transform.py:134-135 | with `{1: 2, 2: 3}` the loop sends 1 to 3, where single-pass substitution would give 2 |
| `IntRemap.SinglePairRemovesKey` | ftag/transform.py:134-135 | after a single pair `{a: b}` with `a != b`, an element still equals `a` exactly when it is a boolean `True`, `a == 1` and `b != 0` |
| `FloatStage.MapFloatsGroup` | ftag/transform.py:156-158 | a configured field missing from the group is an error, unlike in `map_ints`; on success every configured field was present and the dtype and count are kept; a length-preserving function on present fields never fails |
| `FloatStage.MapFloatsGroupApplies` | ftag/transform.py:156-158 | on success, each configured column is replaced by its function's result applied to the old column, and every other column is kept |
| `FloatStage.MapFloats` | ftag/transform.py:152-159 | group keys, dtypes and counts are kept; a group no table names is unchanged; a configured field missing from a present group aborts the call |
| `Insert.Classify` | ftag/transform.py:62-69 | bool gives `b1`, float gives `f4`, int gives `i4`, each filled with the value; any other type is a `TypeError` naming the type and the field |
| `Insert.BoolBeforeInt` | ftag/transform.py:62-67 | a boolean is an `int` instance yet is stored as `b1` |
| `Insert.AppendField` | ftag/transform.py:70-72 | the new field is appended last; every value equals the default; existing fields, values and record count are unchanged |
| `Insert.InsertGroup` | ftag/transform.py:58-72 | on success the old fields and values come first, unchanged, and every configured field is present; a group that already has them all is returned as it was; a failure is a `TypeError` on a missing field with an unsupported default |
| `Insert.AppendKeepsFields` | ftag/transform.py:72 | appending keeps every existing name and adds the new one |
| `Insert.InsertGroupNewFields` | ftag/transform.py:58-72 | every appended field was missing from the group, is configured for it, and has the type and the fill value its default classifies to |
| `Insert.InsertGroupFails` | ftag/transform.py:58-69 | insertion fails exactly when a missing field has a default of an unsupported type |
| `Insert.ExtendsKeepsFields` | ftag/transform.py:72 | a field present before insertion is present after it |
| `Insert.ExtendsTransitive` | ftag/transform.py:70-72 | two successive appends still leave the original fields and values first and unchanged |
| `Insert.InsertVariables` | ftag/transform.py:54-73 | group keys and record counts are kept; every group only gains fields after its old ones; a group no table names is unchanged; failure is a `TypeError` |
| `Insert.InsertVariablesInserts` | ftag/transform.py:54-73 | with one table per group, after a successful call a group the batch holds is exactly what the inner loop makes of it from its own table (so its new fields carry the classified type and the default), and unchanged when it has no table |
| `Insert.AppendKeepsTyped` | ftag/transform.py:70-72 | appending a field whose fill value fits its type keeps the group typed |
| `Insert.InsertGroupKeepsTyped` | ftag/transform.py:58-72 | inserting defaults keeps a group typed, since each default is stored under the type it classifies to |
| `Insert.InsertVariablesKeepsTyped` | ftag/transform.py:54-73 | a typed batch stays typed under a successful `insert_variables` |
| `Insert.InsertCovers` | ftag/transform.py:54-72 | after a successful call, every present group holds every field configured for it |
| `Insert.InsertSkipsCovered` | ftag/transform.py:55-60 | a batch that already holds every configured field is returned unchanged |
| `Insert.InsertIdempotent` | ftag/transform.py:54-73 | inserting a second time leaves the batch unchanged |
| `Rename.StripSlashes` | ftag/transform.py:163 | `lstrip("/")` removes exactly the leading slashes and leaves a suffix that does not start with one |
| `Rename.FirstCollision` | ftag/transform.py:166-168 | reports the first pair whose two names both exist, and reports nothing exactly when no pair collides |
| `Rename.MapDtype` | ftag/transform.py:161-169 | a group with no table or an empty one keeps its dtype; on success field count, order and types are kept, each name becomes `map.get(name, name)`, and names stay distinct; a failure is a collision or a repeated name in this group |
| `Rename.MapDtypeCollision` | ftag/transform.py:165-168 | renaming fails with a collision exactly when some pair has both names present; the error names the first such pair and the group |
| `Rename.InjectiveRenameSucceeds` | ftag/transform.py:165-169 | with an injective table and no collision, renaming succeeds |
| `Rename.RenameGroup` | ftag/transform.py:108-109 | one group's dtype is renamed, its values, count and field types are kept, every other group is unchanged, and a failure is a collision or a repeated name |
| `Rename.MapVariablesOver` | ftag/transform.py:107-109 | group keys, columns, counts, field count and field types are kept; groups not yet visited are unchanged; failure is a collision or a repeated name |
| `Rename.MapVariables` | ftag/transform.py:106-110 | group keys are kept; a group that the rename table does not name is unchanged |
| `Rename.MapVariablesKeepsTyped` | ftag/transform.py:106-110 | a typed batch stays typed under a successful `map_variables` |
| `Rename.MapVariablesOverRenames` | ftag/transform.py:107-109 | each named group present in the batch gets exactly the dtype that `map_dtype` computes for it alone |
| `Rename.CollisionAborts` | ftag/transform.py:106-110 | with one table per group, a collision in any named group present in the batch makes the whole call fail |
| `Rename.MapVariableNames` | ftag/transform.py:171-175 | same length and order; each name becomes `map.get(x, x)` of the group's table, looked up after stripping leading slashes; with no table or an empty one, the list is returned unchanged |
| `Rename.InverseTableFor` | ftag/transform.py:22-24 | the inverse table of a group is the swap of its forward table |
| `Rename.TranslateRoundTrip` | ftag/transform.py:22-24 | for an injective table, `inv.get(m.get(x, x), ...)` gives back `x` exactly when `x` is a key of the table or is not one of its values |
| `Rename.TranslateRoundTripInverseFirst` | ftag/transform.py:22-24 | for an injective table, `m.get(inv.get(x, x), ...)` gives back `x` exactly when `x` is one of the table's values or is not one of its keys |
| `Rename.RoundTrip` | ftag/transform.py:171-175 | for an injective table, forward then inverse `map_variable_names` returns the list unchanged exactly when each of its names is renamed by the table or is not a rename target |
| `Rename.RoundTripInverseFirst` | ftag/transform.py:171-175 | for an injective table, inverse then forward `map_variable_names` returns the list unchanged exactly when each of its names is a rename target or is not renamed |
| `Rename.DtypeAgreesWithNames` | ftag/transform.py:169-175 | the names of a renamed dtype are the forward translation of its old names |
| `Pipeline.Call` | ftag/transform.py:33-37 | the stages run in order and the first error aborts; group keys and record counts are kept; a group that no table names comes back unchanged |
| `Scenarios.FlavorRemap` | ftag/transform.py:134-135 | `{1: 5, 2: 6}` turns `[0, 1, 2]` into `[0, 5, 6]` |
| `Scenarios.InsertIsSignal` | ftag/transform.py:54-72 | a missing `is_signal` with default `False` becomes a `b1` field, all `False`, with the same records |
| `Scenarios.RenameCollision` | ftag/transform.py:165-168 | renaming `pt` to `pT` in a group that has both fails with a collision for that group |

## Left out

- Numeric functions: the float stage's functions are the parameter `apply`. Resolving names is membership in the parameter `registry`, standing for `getattr(np, func)`. Floating-point arithmetic is not modelled. `registry` is every attribute name `getattr(np, func)` finds, callable or not (`"pi"` is in it). So `Config.Normalise` fails with `UnknownFunction` exactly where `getattr` raises `AttributeError`. A name that resolves to a non-callable attribute builds the object without error in both. The Python code then fails `assert callable(func)` (ftag/transform.py:157) when a batch holds that group. The model has no such error: `apply` is unconstrained on that name, so on that field the model's float stage does whatever `apply` says.
- Numpy broadcasting when a function result is written back: any result whose length is not the record count is an error.
- The cast numpy applies when a function result is written back into a field: the float stage stores the values `apply` returns as they are. So the model does not claim that `map_floats`, or the whole call, keeps a batch `Typed`.
- Storage widths: `b1`, `f4` and `i4` are type tags. Integers are unbounded. No `f4` rounding or `i4` overflow is modelled, neither for written remap values nor for inserted defaults.
- Aliasing: stages mutate the batch in place. When a later group raises, earlier groups of the caller's dict are already changed. The model has value semantics and returns only the error.
- Values in `floats_map` that are already callables are not modelled; only names are.
- The commented-out variant of `insert_variables` (ftag/transform.py:74-90) is dead code.
- The `assert ... is not None` checks are not modelled: after construction the tables are never `None`.
- Multi-dimensional groups: a group is a one-dimensional array of `count` records. The Python code works elementwise on arrays of any shape (`np.full(batch[group].shape, ...)` at ftag/transform.py:70, `data == old` at ftag/transform.py:135). Multi-dimensional groups are not modelled: the model records no shape, and says nothing about how `rfn.append_fields` (ftag/transform.py:72) treats such a group, which may fail.
- Rename.MapDtype: numpy's dtype constructor names a field given the empty name `f<index>`; the model keeps the empty name. So a rename to `""` gives the field `f<index>` in the Python code, named after the field's position (`f2` for the third field), and it raises a duplicate-name error if a field of that name already exists; the model gives `""` and succeeds.
- Insert.AppendField: the same numpy rule applies to `rfn.append_fields` (ftag/transform.py:72), which builds the new field's dtype from `[(variable, dtype)]`; the model keeps the empty name. So for a default configured under the name `""`, the Python code appends the field `f0`, or raises `ValueError` when the group already has `f0`; and since `""` is never among the dtype's names (ftag/transform.py:59), a second call then raises. The model appends a field named `""` and succeeds. On that input `Insert.InsertGroup` and `Insert.InsertVariables` (a failure is a `TypeError`), `Insert.InsertCovers` (the group holds `""`) and `Insert.InsertIdempotent` state what the model does, not what the Python code does.
- Rename.DtypeAgreesWithNames: for the same reason, a rename to `""` makes the Python dtype name `f<index>` differ from the `""` that `map_variable_names` returns; the model states agreement without that exception.

=== FILE: batches.dfy ===
/** The data the transform works on.

    A batch maps group names ("jets", "tracks", ...) to structured numpy
    arrays.  A structured array is modelled by its dtype (an ordered list of
    named, typed fields), one column of values per field and the number of
    records.  Storage widths are type tags only. */
module Batches {
  import opened Dicts

  /** One stored value.  Reals stand for floating-point numbers (no rounding). */
  datatype Scalar = BoolS(b: bool) | IntS(i: int) | FloatS(x: real)

  /** Storage type of a field: the three the transform creates (`b1`, `f4`,
      `i4`) and any other dtype a batch may already carry. */
  datatype DType = B1 | F4 | I4 | Other(descr: string)

  /** One `(name, dtype)` entry of a structured dtype. */
  datatype Spec = Spec(name: string, dtype: DType)

  /** A structured array: its dtype, one column per field, the record count. */
  datatype Group = Group(schema: seq<Spec>, columns: seq<seq<Scalar>>, count: nat)

  type Batch = map<string, Group>

  /** A default value as Python hands it over in `insert_vars`. */
  datatype PyValue = PyBool(b: bool) | PyInt(i: int) | PyFloat(x: real) | PyOther(typeName: string)

  /** The exceptions the transform raises. */
  datatype Error =
    | UnknownFunction(func: string)                  // getattr(np, func) fails
    | MissingField(group: string, variable: string)  // numpy: no field of that name
    | ShapeMismatch(group: string, variable: string) // numpy: cannot assign the result back
    | TypeError(typeName: string, variable: string)  // unsupported default value type
    | Collision(oldName: string, newName: string, group: string) // rename target already exists
    | DuplicateName(group: string)                   // numpy: a name occurs twice in a dtype

  predicate HasField(schema: seq<Spec>, name: string) {
    exists i :: 0 <= i < |schema| && schema[i].name == name
  }

  /** `dtype.names` */
  function Names(schema: seq<Spec>): seq<string> {
    seq(|schema|, i requires 0 <= i < |schema| => schema[i].name)
  }

  predicate DistinctNames(schema: seq<Spec>) {
    forall i, j :: 0 <= i < j < |schema| ==> schema[i].name != schema[j].name
  }

  /** What numpy guarantees of every structured array. */
  predicate WellFormedGroup(g: Group) {
    && |g.columns| == |g.schema|
    && (forall i :: 0 <= i < |g.columns| ==> |g.columns[i]| == g.count)
    && DistinctNames(g.schema)
  }

  /** A stored value fits its field's storage type: `b1` holds booleans,
      `f4` floats and `i4` integers; other dtypes are not constrained. */
  predicate KindAgrees(dtype: DType, v: Scalar) {
    match dtype
    case B1 => v.BoolS?
    case F4 => v.FloatS?
    case I4 => v.IntS?
    case Other(_) => true
  }

  /** Every value of a group fits the storage type of its field, as numpy's
      typed storage guarantees. */
  predicate Typed(g: Group) {
    forall i, j :: 0 <= i < |g.schema| && i < |g.columns| && 0 <= j < |g.columns[i]| ==>
      KindAgrees(g.schema[i].dtype, g.columns[i][j])
  }

  predicate TypedBatch(b: Batch) {
    forall name :: name in b ==> Typed(b[name])
  }

  predicate WellFormed(b: Batch) {
    forall name :: name in b ==> WellFormedGroup(b[name])
  }

  /** Position of the field called `name` (`arr[name]` selects it). */
  function IndexOf(schema: seq<Spec>, name: string): (i: nat)
    requires HasField(schema, name)
    ensures i < |schema| && schema[i].name == name
    ensures forall j :: 0 <= j < i ==> schema[j].name != name
  {
    if schema[0].name == name then 0
    else
      assert HasField(schema[1..], name) by {
        var k :| 0 <= k < |schema| && schema[k].name == name;
        assert schema[1..][k - 1].name == name;
      }
      1 + IndexOf(schema[1..], name)
  }
}

=== FILE: config.dfy ===
/** The `Transform` configuration object and its normalisation at
    construction time. */
module Config {
  import opened Results
  import opened Dicts
  import opened Batches

  /** group -> {old field name -> new field name} */
  type RenameTables = Dict<string, Dict<string, string>>
  /** group -> field -> {old integer -> new integer} */
  type IntTables = Dict<string, Dict<string, Dict<int, int>>>
  /** group -> field -> name of an elementwise numpy function */
  type FloatTables = Dict<string, Dict<string, string>>
  /** group -> field -> default value */
  type InsertTables = Dict<string, Dict<string, PyValue>>

  /** The four tables as the caller passes them; each may be `None`. */
  datatype RawConfig = RawConfig(
    variableMap: Option<RenameTables>,
    intsMap: Option<IntTables>,
    floatsMap: Option<FloatTables>,
    insertVars: Option<InsertTables>)

  /** The normalised configuration: no table absent, the inverse rename
      table derived, every float function name resolved. */
  datatype Transform = Transform(
    variableMap: RenameTables,
    variableMapInv: RenameTables,
    intsMap: IntTables,
    floatsMap: FloatTables,
    insertVars: InsertTables)

  /** `table or {}`: an absent table and an empty one both become empty. */
  function OrEmpty<K, V>(table: Option<Dict<K, V>>): (r: Dict<K, V>)
    ensures table.None? ==> r == []
    ensures table.Some? ==> r == table.value
  {
    match table
    case Some(d) => d
    case None => []
  }

  /** `{k: {v: k for k, v in v.items()} for k, v in variable_map.items()}`:
      one entry per group, each holding the swapped table of that group. */
  function InvertTables(vm: RenameTables): (inv: RenameTables)
    ensures |inv| == |vm|
    ensures forall i :: 0 <= i < |vm| ==> inv[i].0 == vm[i].0
  {
    seq(|vm|, i requires 0 <= i < |vm| => (vm[i].0, Swap(vm[i].1)))
  }

  /** Looking a group up in the inverse table finds the swap of its forward
      table, and misses exactly where the forward lookup misses. */
  lemma {:induction false} GetInverted(vm: RenameTables, group: string)
    ensures Get(vm, group).None? ==> Get(InvertTables(vm), group).None?
    ensures Get(vm, group).Some? ==> Get(InvertTables(vm), group) == Some(Swap(Get(vm, group).value))
  {
    if |vm| > 0 && vm[0].0 != group {
      assert InvertTables(vm)[1..] == InvertTables(vm[1..]);
      GetInverted(vm[1..], group);
    }
  }

  /** Every function name of the float table is in the registry. */
  predicate AllResolvable(floats: FloatTables, registry: set<string>) {
    forall g, v :: 0 <= g < |floats| && 0 <= v < |floats[g].1| ==> floats[g].1[v].1 in registry
  }

  /** The first function name, in table order, that the registry lacks. */
  function FirstUnknown(floats: FloatTables, registry: set<string>): (r: Option<string>)
    ensures r.None? <==> AllResolvable(floats, registry)
    ensures r.Some? ==> r.value !in registry && exists g, v :: 0 <= g < |floats| && 0 <= v < |floats[g].1| && floats[g].1[v].1 == r.value
  {
    if |floats| == 0 then None
    else
      match FirstUnknownIn(floats[0].1, registry)
      case Some(f) => Some(f)
      case None =>
        var r := FirstUnknown(floats[1..], registry);
        assert forall g :: 0 < g < |floats| ==> floats[g] == floats[1..][g - 1];
        assert r.Some? ==> exists g, v :: 0 <= g < |floats| && 0 <= v < |floats[g].1| && floats[g].1[v].1 == r.value by {
          if r.Some? {
            var g, v :| 0 <= g < |floats[1..]| && 0 <= v < |floats[1..][g].1| && floats[1..][g].1[v].1 == r.value;
            assert floats[g + 1].1[v].1 == r.value;
          }
        }
        r
  }

  function FirstUnknownIn(funcs: Dict<string, string>, registry: set<string>): (r: Option<string>)
    ensures r.None? <==> forall v :: 0 <= v < |funcs| ==> funcs[v].1 in registry
    ensures r.Some? ==> r.value !in registry && exists v :: 0 <= v < |funcs| && funcs[v].1 == r.value
  {
    if |funcs| == 0 then None
    else if funcs[0].1 !in registry then Some(funcs[0].1)
    else
      var r := FirstUnknownIn(funcs[1..], registry);
      assert forall v :: 0 < v < |funcs| ==> funcs[v] == funcs[1..][v - 1];
      assert r.Some? ==> exists v :: 0 <= v < |funcs| && funcs[v].1 == r.value by {
        if r.Some? {
          var v :| 0 <= v < |funcs[1..]| && funcs[1..][v].1 == r.value;
          assert funcs[v + 1].1 == r.value;
        }
      }
      r
  }

  /** `Transform.__post_init__`.  `registry` is the set of attribute names
      the numpy namespace provides, callable or not. */
  function Normalise(raw: RawConfig, registry: set<string>): (r: Result<Transform, Error>)
    ensures r.Ok? <==> AllResolvable(OrEmpty(raw.floatsMap), registry)
    ensures r.Err? ==> r.error.UnknownFunction? && r.error.func !in registry
    ensures r.Ok? ==> && r.value.variableMap == OrEmpty(raw.variableMap)
                      && r.value.intsMap == OrEmpty(raw.intsMap)
                      && r.value.floatsMap == OrEmpty(raw.floatsMap)
                      && r.value.insertVars == OrEmpty(raw.insertVars)
    ensures r.Ok? ==> Consistent(r.value)
  {
    var vm := OrEmpty(raw.variableMap);
    var floats := OrEmpty(raw.floatsMap);
    match FirstUnknown(floats, registry)
    case Some(f) => Err(UnknownFunction(f))
    case None =>
      Ok(Transform(vm, InvertTables(vm), OrEmpty(raw.intsMap), floats, OrEmpty(raw.insertVars)))
  }

  /** The relation between the forward and the inverse rename tables that
      construction establishes. */
  predicate Consistent(t: Transform) {
    t.variableMapInv == InvertTables(t.variableMap)
  }
}

=== FILE: dicts.dfy ===
/** Python dictionaries as association lists in insertion order.

    A `dict` literal or comprehension keeps its keys in insertion order, and
    the transform relies on that order (remap pairs are applied one after
    another, the collision check reports the first offending pair).  A
    `Dict<K, V>` is therefore a sequence of pairs; `IsDict` says the keys are
    distinct, which every real Python dict satisfies. */
module Dicts {
  import opened Results

  type Dict<K, V> = seq<(K, V)>

  predicate HasKey<K(==), V>(d: Dict<K, V>, k: K) {
    exists i :: 0 <= i < |d| && d[i].0 == k
  }

  predicate HasValue<K, V(==)>(d: Dict<K, V>, v: V) {
    exists i :: 0 <= i < |d| && d[i].1 == v
  }

  /** The keys are pairwise distinct, as in every Python dict. */
  predicate IsDict<K(==), V>(d: Dict<K, V>) {
    forall i, j :: 0 <= i < j < |d| ==> d[i].0 != d[j].0
  }

  /** No two entries share a value. */
  predicate Injective<K, V(==)>(d: Dict<K, V>) {
    forall i, j :: 0 <= i < j < |d| ==> d[i].1 != d[j].1
  }

  /** A key is present in a non-empty table when it is the first key or is
      present in the rest. */
  lemma HasKeyTail<K, V>(d: Dict<K, V>)
    requires |d| > 0
    ensures forall k :: HasKey(d, k) <==> d[0].0 == k || HasKey(d[1..], k)
  {
    forall k ensures HasKey(d, k) <==> d[0].0 == k || HasKey(d[1..], k) {
      if HasKey(d[1..], k) {
        var i :| 0 <= i < |d[1..]| && d[1..][i].0 == k;
        assert d[i + 1].0 == k;
      }
      if HasKey(d, k) && d[0].0 != k {
        var i :| 0 <= i < |d| && d[i].0 == k;
        assert d[1..][i - 1].0 == k;
      }
    }
  }

  /** The rest of a dict is a dict without its first key. */
  lemma IsDictTail<K, V>(d: Dict<K, V>)
    requires |d| > 0 && IsDict(d)
    ensures IsDict(d[1..]) && !HasKey(d[1..], d[0].0)
  {
    forall a, c | 0 <= a < c < |d[1..]| ensures d[1..][a].0 != d[1..][c].0 {
      assert d[1..][a] == d[a + 1] && d[1..][c] == d[c + 1];
    }
    forall a | 0 <= a < |d[1..]| ensures d[1..][a].0 != d[0].0 {
      assert d[1..][a] == d[a + 1];
    }
  }

  /** `d.get(k)`: the value of the first entry with key `k`. */
  function Get<K(==), V>(d: Dict<K, V>, k: K): Option<V> {
    if |d| == 0 then None
    else if d[0].0 == k then Some(d[0].1)
    else Get(d[1..], k)
  }

  /** `d.get(k, default)`. */
  function GetOr<K(==), V>(d: Dict<K, V>, k: K, default: V): V {
    match Get(d, k)
    case Some(v) => v
    case None => default
  }

  /** A lookup hits exactly when the key is present, and what it returns is
      the value of an entry with that key. */
  lemma {:induction false} GetHits<K, V>(d: Dict<K, V>, k: K)
    ensures Get(d, k).Some? <==> HasKey(d, k)
    ensures Get(d, k).Some? ==> exists i :: 0 <= i < |d| && d[i] == (k, Get(d, k).value)
  {
    if |d| > 0 && d[0].0 != k {
      GetHits(d[1..], k);
      if HasKey(d, k) {
        var i :| 0 <= i < |d| && d[i].0 == k;
        assert d[1..][i - 1].0 == k;
      }
      if Get(d, k).Some? {
        var j :| 0 <= j < |d[1..]| && d[1..][j] == (k, Get(d, k).value);
        assert d[j + 1] == (k, Get(d, k).value);
      }
    } else if |d| > 0 {
      assert d[0] == (k, d[0].1);
    }
  }

  /** In a dict, looking up the key of any entry returns that entry's value. */
  lemma {:induction false} GetOfDict<K, V>(d: Dict<K, V>, i: nat)
    requires IsDict(d) && i < |d|
    ensures Get(d, d[i].0) == Some(d[i].1)
    ensures GetOr(d, d[i].0, d[i].1) == d[i].1
  {
    if i > 0 {
      assert d[1..][i - 1] == d[i];
      GetOfDict(d[1..], i - 1);
    }
  }

  /** `d[k] = v`: overwrite the entry in place when the key is present,
      append it otherwise. */
  function Put<K(==,!new), V>(d: Dict<K, V>, k: K, v: V): (r: Dict<K, V>)
    ensures Get(r, k) == Some(v)
    ensures forall k' :: k' != k ==> Get(r, k') == Get(d, k')
    ensures !HasKey(d, k) ==> r == d + [(k, v)]
    ensures |r| > 0
  {
    if |d| == 0 then [(k, v)]
    else if d[0].0 == k then [(k, v)] + d[1..]
    else
      var t := Put(d[1..], k, v);
      var r := [d[0]] + t;
      assert r[1..] == t;
      assert !HasKey(d, k) ==> !HasKey(d[1..], k) by {
        if HasKey(d[1..], k) {
          var i :| 0 <= i < |d[1..]| && d[1..][i].0 == k;
          assert d[i + 1].0 == k;
        }
      }
      r
  }

  /** Assigning a key adds it to the keys and removes none; the keys stay
      distinct. */
  lemma PutKeys<K(!new), V>(d: Dict<K, V>, k: K, v: V)
    ensures forall k' :: HasKey(Put(d, k, v), k') <==> k' == k || HasKey(d, k')
    ensures IsDict(d) ==> IsDict(Put(d, k, v))
  {
    forall k' ensures HasKey(Put(d, k, v), k') <==> k' == k || HasKey(d, k') {
      GetHits(Put(d, k, v), k');
      GetHits(d, k');
    }
    if IsDict(d) {
      PutKeepsDict(d, k, v);
    }
  }

  lemma {:induction false} PutKeepsDict<K(!new), V>(d: Dict<K, V>, k: K, v: V)
    requires IsDict(d)
    ensures IsDict(Put(d, k, v))
  {
    if |d| > 0 && d[0].0 == k {
      var r := Put(d, k, v);
      assert forall i :: 0 < i < |r| ==> r[i] == d[i];
    } else if |d| > 0 {
      var t := Put(d[1..], k, v);
      var r := [d[0]] + t;
      assert IsDict(d[1..]) by {
        forall i, j | 0 <= i < j < |d[1..]| ensures d[1..][i].0 != d[1..][j].0 {
          assert d[1..][i] == d[i + 1] && d[1..][j] == d[j + 1];
        }
      }
      PutKeepsDict(d[1..], k, v);
      assert !HasKey(d[1..], d[0].0) by {
        forall i | 0 <= i < |d[1..]| ensures d[1..][i].0 != d[0].0 {
          assert d[1..][i] == d[i + 1];
        }
      }
      GetHits(d[1..], d[0].0);
      GetHits(t, d[0].0);
      forall j | 0 < j < |r| ensures r[0].0 != r[j].0 {
        assert r[j] == t[j - 1];
      }
    }
  }

  /** Entry `i` is the last one of `d` carrying its value. */
  predicate LastWithValue<K, V(==)>(d: Dict<K, V>, i: nat)
    requires i < |d|
  {
    forall j :: i < j < |d| ==> d[j].1 != d[i].1
  }

  /** The inverse table `{v: k for k, v in d.items()}`: a left fold of `Put`
      over the entries, so on a repeated value the LAST key wins while the
      entry keeps the position of the value's first occurrence. */
  function Swap<K, V(==,!new)>(d: Dict<K, V>): (r: Dict<V, K>)
    ensures IsDict(r)
    ensures forall w :: HasKey(r, w) <==> HasValue(d, w)
    ensures forall i :: 0 <= i < |d| && LastWithValue(d, i) ==> Get(r, d[i].1) == Some(d[i].0)
  {
    if |d| == 0 then []
    else
      var p := d[..|d| - 1];
      var (k, v) := d[|d| - 1];
      var s := Swap(p);
      PutKeys(s, v, k);
      var r := Put(s, v, k);
      forall w ensures HasKey(r, w) <==> HasValue(d, w) {
        assert HasKey(r, w) <==> w == v || HasKey(s, w);
        assert HasKey(s, w) <==> HasValue(p, w);
        if HasValue(p, w) {
          var i :| 0 <= i < |p| && p[i].1 == w;
          assert d[i].1 == w;
        }
        if w == v {
          assert d[|d| - 1].1 == w;
        }
        if HasValue(d, w) && w != v {
          var i :| 0 <= i < |d| && d[i].1 == w;
          assert p[i].1 == w;
        }
      }
      forall i | 0 <= i < |d| && LastWithValue(d, i)
        ensures Get(r, d[i].1) == Some(d[i].0)
      {
        if i < |d| - 1 {
          assert LastWithValue(p, i);
        }
      }
      r
  }

  /** Every entry with its key and value exchanged, in the same order. */
  function Flip<K, V>(d: Dict<K, V>): Dict<V, K> {
    seq(|d|, i requires 0 <= i < |d| => (d[i].1, d[i].0))
  }

  /** On an injective table the inverse is exactly the swapped table: one
      entry per forward entry, in the same order. */
  lemma {:induction false} SwapOfInjective<K, V(!new)>(d: Dict<K, V>)
    requires Injective(d)
    ensures Swap(d) == Flip(d)
    ensures |Swap(d)| == |d|
  {
    if |d| > 0 {
      var p := d[..|d| - 1];
      var (k, v) := d[|d| - 1];
      SwapOfInjective(p);
      assert !HasValue(p, v);
      assert !HasKey(Swap(p), v);
      assert Flip(p) + [(v, k)] == Flip(d);
    }
  }

  /** Every forward entry `k -> v` of an injective table gives `inv[v] == k`. */
  lemma InverseOfInjective<K, V(!new)>(d: Dict<K, V>)
    requires Injective(d)
    ensures forall i :: 0 <= i < |d| ==> Get(Swap(d), d[i].1) == Some(d[i].0)
  {
    forall i | 0 <= i < |d|
      ensures Get(Swap(d), d[i].1) == Some(d[i].0)
    {
      assert LastWithValue(d, i);
    }
  }
}

=== FILE: floats.dfy ===
/** `Transform.map_floats`, with the numeric functions left abstract.

    `apply(func, column)` stands for calling the numpy attribute named
    `func` on a column; nothing is assumed about it, not even that the
    attribute is callable, so the `assert callable(func)` of `map_floats`
    has no counterpart here.  Unlike `map_ints`, `map_floats` does not check
    that a configured field exists: selecting a missing field raises.
    Writing back a result whose length differs from the record count raises
    as well. */
module FloatStage {
  import opened Results
  import opened Dicts
  import opened Batches
  import opened Config

  type Apply = (string, seq<Scalar>) -> seq<Scalar>

  /** Every configured field of one group recomputed, in table order. */
  function MapFloatsGroup(funcs: Dict<string, string>, group: string, g: Group, apply: Apply): (r: Result<Group, Error>)
    requires WellFormedGroup(g)
    ensures r.Ok? ==> WellFormedGroup(r.value) && r.value.schema == g.schema && r.value.count == g.count
    ensures r.Ok? ==> forall k :: 0 <= k < |funcs| ==> HasField(g.schema, funcs[k].0)
    ensures r.Err? ==> (r.error.MissingField? || r.error.ShapeMismatch?) && r.error.group == group
    ensures ((forall k :: 0 <= k < |funcs| ==> HasField(g.schema, funcs[k].0)) &&
             (forall f, c :: |apply(f, c)| == |c|)) ==> r.Ok?
  {
    if |funcs| == 0 then Ok(g)
    else
      var (variable, func) := funcs[0];
      if !HasField(g.schema, variable) then Err(MissingField(group, variable))
      else
        var i := IndexOf(g.schema, variable);
        var col := apply(func, g.columns[i]);
        if |col| != g.count then Err(ShapeMismatch(group, variable))
        else
          assert forall k :: 0 < k < |funcs| ==> funcs[k] == funcs[1..][k - 1];
          MapFloatsGroup(funcs[1..], group, g.(columns := g.columns[i := col]), apply)
  }

  /** With distinct field names in the table, each configured column is
      replaced by its function's result and every other column is kept. */
  lemma {:induction false} MapFloatsGroupApplies(funcs: Dict<string, string>, group: string, g: Group, apply: Apply)
    requires WellFormedGroup(g) && IsDict(funcs)
    requires MapFloatsGroup(funcs, group, g, apply).Ok?
    ensures forall i :: 0 <= i < |g.columns| ==>
              MapFloatsGroup(funcs, group, g, apply).value.columns[i] ==
                (match Get(funcs, g.schema[i].name) case Some(f) => apply(f, g.columns[i]) case None => g.columns[i])
  {
    if |funcs| > 0 {
      var (variable, func) := funcs[0];
      var i := IndexOf(g.schema, variable);
      var h := g.(columns := g.columns[i := apply(func, g.columns[i])]);
      assert MapFloatsGroup(funcs, group, g, apply) == MapFloatsGroup(funcs[1..], group, h, apply);
      IsDictTail(funcs);
      GetHits(funcs[1..], variable);
      MapFloatsGroupApplies(funcs[1..], group, h, apply);
    }
  }

  /** `Transform.map_floats`: groups the batch lacks are skipped. */
  function MapFloats(table: FloatTables, b: Batch, apply: Apply): (r: Result<Batch, Error>)
    requires WellFormed(b)
    ensures r.Ok? ==> WellFormed(r.value) && r.value.Keys == b.Keys
    ensures r.Ok? ==> forall g :: g in b ==> r.value[g].schema == b[g].schema && r.value[g].count == b[g].count
    ensures r.Ok? ==> forall g :: g in b && !HasKey(table, g) ==> r.value[g] == b[g]
    ensures MissesField(table, b) ==> r.Err?
  {
    if |table| == 0 then Ok(b)
    else
      var (group, funcs) := table[0];
      if group !in b then
        assert MissesField(table, b) ==> MissesField(table[1..], b) by {
          if MissesField(table, b) {
            var t, k :| 0 <= t < |table| && table[t].0 in b && 0 <= k < |table[t].1| &&
                        !HasField(b[table[t].0].schema, table[t].1[k].0);
            assert table[1..][t - 1] == table[t];
          }
        }
        MapFloats(table[1..], b, apply)
      else
        match MapFloatsGroup(funcs, group, b[group], apply)
        case Err(e) => Err(e)
        case Ok(h) =>
          var r := MapFloats(table[1..], b[group := h], apply);
          assert MissesField(table, b) ==> MissesField(table[1..], b[group := h]) by {
            if MissesField(table, b) {
              var t, k :| 0 <= t < |table| && table[t].0 in b && 0 <= k < |table[t].1| &&
                          !HasField(b[table[t].0].schema, table[t].1[k].0);
              assert t > 0;
              assert table[1..][t - 1] == table[t];
            }
          }
          HasKeyTail(table);
          r
  }

  /** Some configured field is missing from a group the batch has. */
  predicate MissesField(table: FloatTables, b: Batch) {
    exists t, k :: 0 <= t < |table| && table[t].0 in b && 0 <= k < |table[t].1| &&
                   !HasField(b[table[t].0].schema, table[t].1[k].0)
  }
}

=== FILE: insert.dfy ===
/** `Transform.insert_variables`: constant-filled fields appended to groups
    that lack them. */
module Insert {
  import opened Results
  import opened Dicts
  import opened Batches
  import opened Config

  /** Python's `isinstance` on a default value.  `bool` is a subclass of
      `int`, so a boolean is also an instance of `int`. */
  predicate IsInstanceBool(value: PyValue) { value.PyBool? }
  predicate IsInstanceFloat(value: PyValue) { value.PyFloat? }
  predicate IsInstanceInt(value: PyValue) { value.PyBool? || value.PyInt? }

  /** The storage type and fill value of a default, tested in the order
      of `insert_variables`: bool, then float, then int; anything else is a `TypeError`
      naming the value's type and the field. */
  function Classify(value: PyValue, variable: string): (r: Result<(DType, Scalar), Error>)
    ensures value.PyBool? ==> r == Ok((B1, BoolS(value.b)))
    ensures value.PyFloat? ==> r == Ok((F4, FloatS(value.x)))
    ensures value.PyInt? ==> r == Ok((I4, IntS(value.i)))
    ensures value.PyOther? ==> r == Err(TypeError(value.typeName, variable))
  {
    if IsInstanceBool(value) then Ok((B1, BoolS(value.b)))
    else if IsInstanceFloat(value) then Ok((F4, FloatS(value.x)))
    else if IsInstanceInt(value) then Ok((I4, IntS(value.i)))
    else Err(TypeError(value.typeName, variable))
  }

  /** A boolean is also an `int` instance, yet it is stored as `b1`: the
      bool test comes first. */
  lemma BoolBeforeInt(b: bool, variable: string)
    ensures IsInstanceInt(PyBool(b))
    ensures Classify(PyBool(b), variable) == Ok((B1, BoolS(b)))
  {
  }

  /** `rfn.append_fields`: the new field goes last, its column is the fill
      value repeated once per record.  The field keeps the name it is given,
      even the empty one, which numpy would rename `f0`. */
  function AppendField(g: Group, variable: string, dtype: DType, fill: Scalar): (r: Group)
    requires WellFormedGroup(g) && !HasField(g.schema, variable)
    ensures WellFormedGroup(r) && r.count == g.count
    ensures r.schema == g.schema + [Spec(variable, dtype)]
    ensures |r.columns| == |g.columns| + 1 && r.columns[..|g.columns|] == g.columns
    ensures forall j :: 0 <= j < r.count ==> r.columns[|g.columns|][j] == fill
  {
    Group(g.schema + [Spec(variable, dtype)], g.columns + [seq(g.count, _ => fill)], g.count)
  }

  /** `g` extends `h`: the same records, the fields of `h` first and
      unchanged, possibly more after them. */
  predicate Extends(g: Group, h: Group) {
    && g.count == h.count
    && |h.schema| <= |g.schema| && g.schema[..|h.schema|] == h.schema
    && |h.columns| <= |g.columns| && g.columns[..|h.columns|] == h.columns
  }

  /** Every field of the table is a field of the group. */
  predicate Covers(schema: seq<Spec>, inserts: Dict<string, PyValue>) {
    forall k :: 0 <= k < |inserts| ==> HasField(schema, inserts[k].0)
  }

  /** The inner loop of `insert_variables`, for one group. */
  function InsertGroup(inserts: Dict<string, PyValue>, g: Group): (r: Result<Group, Error>)
    requires WellFormedGroup(g)
    ensures r.Ok? ==> WellFormedGroup(r.value) && Extends(r.value, g) && Covers(r.value.schema, inserts)
    ensures Covers(g.schema, inserts) ==> r == Ok(g)
    ensures r.Err? ==> r.error.TypeError?
    ensures r.Err? ==> exists k :: 0 <= k < |inserts| && inserts[k].1.PyOther? && !HasField(g.schema, inserts[k].0)
    decreases |inserts|
  {
    if |inserts| == 0 then Ok(g)
    else
      var (variable, value) := inserts[0];
      var rest := inserts[1..];
      assert forall k :: 0 < k < |inserts| ==> inserts[k] == rest[k - 1];
      if HasField(g.schema, variable) then InsertGroup(rest, g)
      else
        match Classify(value, variable)
        case Err(e) => Err(e)
        case Ok((dtype, fill)) =>
          var h := AppendField(g, variable, dtype, fill);
          var r := InsertGroup(rest, h);
          AppendKeepsFields(g, variable, dtype, fill);
          assert r.Ok? ==> Extends(r.value, g) by {
            if r.Ok? {
              ExtendsTransitive(r.value, h, g);
            }
          }
          assert r.Err? ==> exists k :: 0 <= k < |inserts| && inserts[k].1.PyOther? && !HasField(g.schema, inserts[k].0) by {
            if r.Err? {
              var k :| 0 <= k < |rest| && rest[k].1.PyOther? && !HasField(h.schema, rest[k].0);
              assert inserts[k + 1] == rest[k];
            }
          }
          r
  }

  /** Appending a field keeps every existing name and adds the new one. */
  lemma AppendKeepsFields(g: Group, variable: string, dtype: DType, fill: Scalar)
    requires WellFormedGroup(g) && !HasField(g.schema, variable)
    ensures forall n :: HasField(AppendField(g, variable, dtype, fill).schema, n) <==> n == variable || HasField(g.schema, n)
  {
    var h := AppendField(g, variable, dtype, fill);
    forall n ensures HasField(h.schema, n) <==> n == variable || HasField(g.schema, n) {
      if HasField(g.schema, n) {
        var i :| 0 <= i < |g.schema| && g.schema[i].name == n;
        assert h.schema[i].name == n;
      }
      if n == variable {
        assert h.schema[|g.schema|].name == variable;
      }
      if HasField(h.schema, n) {
        var i :| 0 <= i < |h.schema| && h.schema[i].name == n;
        if i < |g.schema| {
          assert g.schema[i].name == n;
        }
      }
    }
  }

  /** Field `s` with column `col` is what the table asks to insert into `g`:
      the group lacked it, and its type and every value come from
      classifying the configured default. */
  predicate NewField(inserts: Dict<string, PyValue>, g: Group, s: Spec, col: seq<Scalar>) {
    && !HasField(g.schema, s.name)
    && Get(inserts, s.name).Some?
    && var c := Classify(Get(inserts, s.name).value, s.name);
       c.Ok? && s.dtype == c.value.0 && forall j :: 0 <= j < |col| ==> col[j] == c.value.1
  }

  /** Every field past the old ones is a configured default, correctly typed
      and filled. */
  lemma {:induction false} InsertGroupNewFields(inserts: Dict<string, PyValue>, g: Group)
    requires WellFormedGroup(g) && IsDict(inserts)
    requires InsertGroup(inserts, g).Ok?
    ensures var r := InsertGroup(inserts, g).value;
            forall i :: |g.schema| <= i < |r.schema| ==> NewField(inserts, g, r.schema[i], r.columns[i])
    decreases |inserts|
  {
    if |inserts| > 0 {
      var (variable, value) := inserts[0];
      var rest := inserts[1..];
      assert IsDict(rest) by {
        forall a, c | 0 <= a < c < |rest| ensures rest[a].0 != rest[c].0 {
          assert rest[a] == inserts[a + 1] && rest[c] == inserts[c + 1];
        }
      }
      assert forall n :: n != variable ==> Get(inserts, n) == Get(rest, n);
      if HasField(g.schema, variable) {
        InsertGroupNewFields(rest, g);
        var r := InsertGroup(inserts, g).value;
        forall i | |g.schema| <= i < |r.schema| ensures NewField(inserts, g, r.schema[i], r.columns[i]) {
          assert NewField(rest, g, r.schema[i], r.columns[i]);
        }
      } else {
        var (dtype, fill) := Classify(value, variable).value;
        var h := AppendField(g, variable, dtype, fill);
        AppendKeepsFields(g, variable, dtype, fill);
        InsertGroupNewFields(rest, h);
        var r := InsertGroup(inserts, g).value;
        assert r == InsertGroup(rest, h).value;
        assert !HasKey(rest, variable) by {
          forall a | 0 <= a < |rest| ensures rest[a].0 != variable {
            assert rest[a] == inserts[a + 1];
          }
        }
        GetHits(rest, variable);
        forall i | |g.schema| <= i < |r.schema| ensures NewField(inserts, g, r.schema[i], r.columns[i]) {
          if i == |g.schema| {
            assert r.schema[..|h.schema|] == h.schema;
            assert r.columns[..|h.columns|] == h.columns;
            assert r.schema[i] == h.schema[i];
            assert r.columns[i] == h.columns[i];
          } else {
            assert NewField(rest, h, r.schema[i], r.columns[i]);
            assert Get(rest, r.schema[i].name).Some?;
          }
        }
      }
    }
  }

  /** With distinct field names in the table, insertion fails exactly when
      some field the group lacks has a default of an unsupported type. */
  lemma {:induction false} InsertGroupFails(inserts: Dict<string, PyValue>, g: Group)
    requires WellFormedGroup(g) && IsDict(inserts)
    ensures InsertGroup(inserts, g).Err? <==>
            exists k :: 0 <= k < |inserts| && inserts[k].1.PyOther? && !HasField(g.schema, inserts[k].0)
    decreases |inserts|
  {
    if |inserts| > 0 {
      var (variable, value) := inserts[0];
      var rest := inserts[1..];
      assert forall k :: 0 < k < |inserts| ==> inserts[k] == rest[k - 1];
      assert IsDict(rest) by {
        forall a, c | 0 <= a < c < |rest| ensures rest[a].0 != rest[c].0 {
          assert rest[a] == inserts[a + 1] && rest[c] == inserts[c + 1];
        }
      }
      if HasField(g.schema, variable) {
        InsertGroupFails(rest, g);
        if exists k :: 0 <= k < |inserts| && inserts[k].1.PyOther? && !HasField(g.schema, inserts[k].0) {
          var k :| 0 <= k < |inserts| && inserts[k].1.PyOther? && !HasField(g.schema, inserts[k].0);
          assert rest[k - 1] == inserts[k];
        }
      } else if !value.PyOther? {
        var (dtype, fill) := Classify(value, variable).value;
        var h := AppendField(g, variable, dtype, fill);
        AppendKeepsFields(g, variable, dtype, fill);
        InsertGroupFails(rest, h);
        if exists k :: 0 <= k < |inserts| && inserts[k].1.PyOther? && !HasField(g.schema, inserts[k].0) {
          var k :| 0 <= k < |inserts| && inserts[k].1.PyOther? && !HasField(g.schema, inserts[k].0);
          assert k > 0 && inserts[k].0 != variable;
          assert rest[k - 1] == inserts[k];
        }
      }
    }
  }

  /** A field present before an extension is present after it. */
  lemma ExtendsKeepsFields(g: Group, h: Group, n: string)
    requires Extends(g, h) && HasField(h.schema, n)
    ensures HasField(g.schema, n)
  {
    var i :| 0 <= i < |h.schema| && h.schema[i].name == n;
    assert g.schema[..|h.schema|][i] == g.schema[i];
  }

  /** Every group the batch has already holds every field configured for it. */
  predicate CoversAll(table: InsertTables, b: Batch) {
    forall t :: 0 <= t < |table| && table[t].0 in b ==> Covers(b[table[t].0].schema, table[t].1)
  }

  /** `Transform.insert_variables`: groups the batch lacks are skipped; the
      first unsupported default aborts the whole call. */
  function InsertVariables(table: InsertTables, b: Batch): (r: Result<Batch, Error>)
    requires WellFormed(b)
    ensures r.Ok? ==> WellFormed(r.value) && r.value.Keys == b.Keys
    ensures r.Ok? ==> forall g :: g in b ==> Extends(r.value[g], b[g])
    ensures r.Ok? ==> forall g :: g in b && !HasKey(table, g) ==> r.value[g] == b[g]
    ensures r.Err? ==> r.error.TypeError?
  {
    if |table| == 0 then Ok(b)
    else
      var (group, inserts) := table[0];
      var rest := table[1..];
      HasKeyTail(table);
      if group !in b then InsertVariables(rest, b)
      else
        match InsertGroup(inserts, b[group])
        case Err(e) => Err(e)
        case Ok(h) =>
          var b' := b[group := h];
          var r := InsertVariables(rest, b');
          assert r.Ok? ==> forall g :: g in b ==> Extends(r.value[g], b[g]) by {
            if r.Ok? {
              forall g | g in b ensures Extends(r.value[g], b[g]) {
                ExtendsTransitive(r.value[g], b'[g], b[g]);
              }
            }
          }
          r
  }

  /** With one table per group, a group the batch holds comes out exactly as
      `InsertGroup` makes it from its own table, and unchanged when it has
      none. */
  lemma {:induction false} InsertVariablesInserts(table: InsertTables, b: Batch, g: string)
    requires WellFormed(b) && IsDict(table) && g in b
    requires InsertVariables(table, b).Ok?
    ensures match Get(table, g)
            case Some(inserts) =>
              InsertGroup(inserts, b[g]).Ok? && InsertVariables(table, b).value[g] == InsertGroup(inserts, b[g]).value
            case None => InsertVariables(table, b).value[g] == b[g]
  {
    if |table| > 0 {
      var (group, inserts) := table[0];
      IsDictTail(table);
      GetHits(table[1..], group);
      if group !in b {
        InsertVariablesInserts(table[1..], b, g);
      } else {
        var h := InsertGroup(inserts, b[group]).value;
        assert InsertVariables(table, b) == InsertVariables(table[1..], b[group := h]);
        InsertVariablesInserts(table[1..], b[group := h], g);
      }
    }
  }

  /** An appended field whose fill value fits its type keeps the group's
      values fitting their types. */
  lemma AppendKeepsTyped(g: Group, variable: string, dtype: DType, fill: Scalar)
    requires WellFormedGroup(g) && !HasField(g.schema, variable)
    requires Typed(g) && KindAgrees(dtype, fill)
    ensures Typed(AppendField(g, variable, dtype, fill))
  {
    var r := AppendField(g, variable, dtype, fill);
    forall i, j | 0 <= i < |r.schema| && i < |r.columns| && 0 <= j < |r.columns[i]|
      ensures KindAgrees(r.schema[i].dtype, r.columns[i][j])
    {
      if i < |g.schema| {
        assert r.columns[i] == r.columns[..|g.columns|][i];
      }
    }
  }

  /** Inserting defaults keeps every value of a group fitting its field's
      type: each default is stored under the type it classifies to. */
  lemma {:induction false} InsertGroupKeepsTyped(inserts: Dict<string, PyValue>, g: Group)
    requires WellFormedGroup(g) && Typed(g) && InsertGroup(inserts, g).Ok?
    ensures Typed(InsertGroup(inserts, g).value)
    decreases |inserts|
  {
    if |inserts| > 0 {
      var (variable, value) := inserts[0];
      if HasField(g.schema, variable) {
        InsertGroupKeepsTyped(inserts[1..], g);
      } else {
        var (dtype, fill) := Classify(value, variable).value;
        AppendKeepsTyped(g, variable, dtype, fill);
        InsertGroupKeepsTyped(inserts[1..], AppendField(g, variable, dtype, fill));
      }
    }
  }

  /** `insert_variables` keeps every stored value fitting its field's type. */
  lemma {:induction false} InsertVariablesKeepsTyped(table: InsertTables, b: Batch)
    requires WellFormed(b) && TypedBatch(b) && InsertVariables(table, b).Ok?
    ensures TypedBatch(InsertVariables(table, b).value)
  {
    if |table| > 0 {
      var (group, inserts) := table[0];
      if group !in b {
        InsertVariablesKeepsTyped(table[1..], b);
      } else {
        var h := InsertGroup(inserts, b[group]).value;
        InsertGroupKeepsTyped(inserts, b[group]);
        assert InsertVariables(table, b) == InsertVariables(table[1..], b[group := h]);
        InsertVariablesKeepsTyped(table[1..], b[group := h]);
      }
    }
  }

  /** Extension is transitive. */
  lemma ExtendsTransitive(x: Group, y: Group, z: Group)
    requires Extends(x, y) && Extends(y, z)
    ensures Extends(x, z)
  {
    assert x.schema[..|z.schema|] == x.schema[..|y.schema|][..|z.schema|];
    assert x.columns[..|z.columns|] == x.columns[..|y.columns|][..|z.columns|];
  }

  /** After a successful insertion every group the batch has holds every
      field configured for it. */
  lemma {:induction false} InsertCovers(table: InsertTables, b: Batch)
    requires WellFormed(b) && InsertVariables(table, b).Ok?
    ensures CoversAll(table, InsertVariables(table, b).value)
  {
    if |table| > 0 {
      var (group, inserts) := table[0];
      var rest := table[1..];
      var r := InsertVariables(table, b).value;
      assert forall t :: 0 < t < |table| ==> table[t] == rest[t - 1];
      if group !in b {
        InsertCovers(rest, b);
      } else {
        var h := InsertGroup(inserts, b[group]).value;
        InsertCovers(rest, b[group := h]);
        assert r == InsertVariables(rest, b[group := h]).value;
        forall k | 0 <= k < |inserts| ensures HasField(r[group].schema, inserts[k].0) {
          ExtendsKeepsFields(r[group], h, inserts[k].0);
        }
      }
    }
  }

  /** A batch that already holds every configured field comes back as it was. */
  lemma {:induction false} InsertSkipsCovered(table: InsertTables, b: Batch)
    requires WellFormed(b) && CoversAll(table, b)
    ensures InsertVariables(table, b) == Ok(b)
  {
    if |table| > 0 {
      var rest := table[1..];
      assert forall t :: 0 < t < |table| ==> table[t] == rest[t - 1];
      InsertSkipsCovered(rest, b);
      if table[0].0 in b {
        assert b[table[0].0 := b[table[0].0]] == b;
      }
    }
  }

  /** Inserting a second time changes nothing. */
  lemma InsertIdempotent(table: InsertTables, b: Batch)
    requires WellFormed(b) && InsertVariables(table, b).Ok?
    ensures InsertVariables(table, InsertVariables(table, b).value) == InsertVariables(table, b)
  {
    InsertCovers(table, b);
    InsertSkipsCovered(table, InsertVariables(table, b).value);
  }
}

=== FILE: pipeline.dfy ===
/** `Transform.__call__`: the four stages in their fixed order. */
module Pipeline {
  import opened Results
  import opened Dicts
  import opened Batches
  import opened Config
  import opened IntRemap
  import opened FloatStage
  import opened Insert
  import opened Rename

  /** Integer remap, float recompute, default insertion, then renaming; the
      first error aborts the call. */
  function Call(t: Transform, b: Batch, apply: Apply): (r: Result<Batch, Error>)
    requires WellFormed(b)
    ensures r.Ok? ==> WellFormed(r.value) && r.value.Keys == b.Keys
    ensures r.Ok? ==> forall g :: g in b ==> r.value[g].count == b[g].count
    ensures r.Ok? ==> forall g :: g in b && Untouched(t, g) ==> r.value[g] == b[g]
  {
    var remapped := MapInts(t.intsMap, b);
    var recomputed :- MapFloats(t.floatsMap, remapped, apply);
    var inserted :- InsertVariables(t.insertVars, recomputed);
    MapVariables(t.variableMap, inserted)
  }

  /** No table of the configuration names the group. */
  predicate Untouched(t: Transform, g: string) {
    && !HasKey(t.variableMap, g)
    && !HasKey(t.intsMap, g)
    && !HasKey(t.floatsMap, g)
    && !HasKey(t.insertVars, g)
  }
}

=== FILE: remap.dfy ===
/** `Transform.map_ints`: integer codes rewritten in place, field by field.

    For each configured `old -> new` pair, in table order, `map_ints` runs
    `data[data == old] = new` over the whole column.  The pairs are therefore
    applied one after another, and a value written by an earlier pair can be
    matched again by a later one (`{1: 2, 2: 3}` sends 1 to 3).  This module
    models that sequential behaviour and sets it beside the single-pass
    substitution one might have expected. */
module IntRemap {
  import opened Results
  import opened Dicts
  import opened Batches
  import opened Config

  /** numpy's `data == old` on one element: a boolean compares as 0 or 1. */
  predicate Matches(v: Scalar, k: int) {
    match v
    case BoolS(b) => (if b then 1 else 0) == k
    case IntS(i) => i == k
    case FloatS(x) => x == k as real
  }

  /** numpy's `data[mask] = k` on one element: `k` is cast to the element's
      storage type (a boolean becomes `k != 0`). */
  function Store(v: Scalar, k: int): Scalar {
    match v
    case BoolS(_) => BoolS(k != 0)
    case IntS(_) => IntS(k)
    case FloatS(_) => FloatS(k as real)
  }

  /** One pair applied to one element. */
  function Subst(v: Scalar, from: int, to: int): Scalar {
    if Matches(v, from) then Store(v, to) else v
  }

  /** The pairs applied to one element, one after another. */
  function RemapValue(v: Scalar, pairs: Dict<int, int>): Scalar
    decreases |pairs|
  {
    if |pairs| == 0 then v
    else RemapValue(Subst(v, pairs[0].0, pairs[0].1), pairs[1..])
  }

  /** One statement `data[data == from] = to` over a whole column. */
  function ApplyPair(col: seq<Scalar>, from: int, to: int): seq<Scalar> {
    seq(|col|, j requires 0 <= j < |col| => Subst(col[j], from, to))
  }

  /** The inner loop of `map_ints`: every pair rewrites the whole column
      before the next pair is looked at.  Element by element this is the
      sequential substitution `RemapValue`. */
  function RemapColumn(col: seq<Scalar>, pairs: Dict<int, int>): (r: seq<Scalar>)
    ensures |r| == |col|
    ensures forall j :: 0 <= j < |col| ==> r[j] == RemapValue(col[j], pairs)
    decreases |pairs|
  {
    if |pairs| == 0 then col
    else RemapColumn(ApplyPair(col, pairs[0].0, pairs[0].1), pairs[1..])
  }

  /** The column of field `variable` rewritten, when the group has that field. */
  function RemapField(g: Group, variable: string, pairs: Dict<int, int>): (r: Group)
    requires WellFormedGroup(g)
    ensures WellFormedGroup(r) && r.schema == g.schema && r.count == g.count
    ensures forall i :: 0 <= i < |g.columns| ==>
              r.columns[i] == (if g.schema[i].name == variable then RemapColumn(g.columns[i], pairs) else g.columns[i])
  {
    if !HasField(g.schema, variable) then g
    else
      var i := IndexOf(g.schema, variable);
      g.(columns := g.columns[i := RemapColumn(g.columns[i], pairs)])
  }

  /** What a field's column becomes under a group's table `fields`. */
  function Remapped(fields: Dict<string, Dict<int, int>>, name: string, col: seq<Scalar>): seq<Scalar> {
    match Get(fields, name)
    case Some(pairs) => RemapColumn(col, pairs)
    case None => col
  }

  /** The middle loop of `map_ints`: every configured field of one group. */
  function RemapGroup(fields: Dict<string, Dict<int, int>>, g: Group): (r: Group)
    requires WellFormedGroup(g)
    ensures WellFormedGroup(r) && r.schema == g.schema && r.count == g.count
    ensures IsDict(fields) ==> forall i :: 0 <= i < |g.columns| ==>
              r.columns[i] == Remapped(fields, g.schema[i].name, g.columns[i])
  {
    if |fields| == 0 then g
    else
      var (variable, pairs) := fields[0];
      var h := RemapField(g, variable, pairs);
      var r := RemapGroup(fields[1..], h);
      assert IsDict(fields) ==> forall i :: 0 <= i < |g.columns| ==>
               r.columns[i] == Remapped(fields, g.schema[i].name, g.columns[i]) by {
        if IsDict(fields) {
          IsDictTail(fields);
          GetHits(fields[1..], variable);
        }
      }
      r
  }

  /** `Transform.map_ints`.  Groups the batch lacks are skipped; within a
      group, fields the dtype lacks are skipped. */
  function MapInts(table: IntTables, b: Batch): (r: Batch)
    requires WellFormed(b)
    ensures WellFormed(r) && r.Keys == b.Keys
    ensures forall g :: g in b ==> r[g].schema == b[g].schema && r[g].count == b[g].count
    ensures forall g :: g in b && !HasKey(table, g) ==> r[g] == b[g]
  {
    if |table| == 0 then b
    else
      var (group, fields) := table[0];
      var b' := if group in b then b[group := RemapGroup(fields, b[group])] else b;
      HasKeyTail(table);
      MapInts(table[1..], b')
  }

  /** Each group of a dict-shaped table that the batch holds is remapped by
      its own table, exactly once. */
  lemma {:induction false} MapIntsRemaps(table: IntTables, b: Batch, g: string)
    requires WellFormed(b) && IsDict(table) && g in b
    ensures MapInts(table, b)[g] ==
              (match Get(table, g) case Some(fields) => RemapGroup(fields, b[g]) case None => b[g])
  {
    if |table| > 0 {
      var (group, fields) := table[0];
      var b' := if group in b then b[group := RemapGroup(fields, b[group])] else b;
      assert MapInts(table, b) == MapInts(table[1..], b');
      IsDictTail(table);
      GetHits(table[1..], group);
      MapIntsRemaps(table[1..], b', g);
    }
  }

  /** A value that no `old` key of the table matches comes out unchanged. */
  lemma {:induction false} UnmatchedUnchanged(v: Scalar, pairs: Dict<int, int>)
    requires forall i :: 0 <= i < |pairs| ==> !Matches(v, pairs[i].0)
    ensures RemapValue(v, pairs) == v
  {
    if |pairs| > 0 {
      assert forall i :: 0 <= i < |pairs[1..]| ==> pairs[1..][i] == pairs[i + 1];
      UnmatchedUnchanged(v, pairs[1..]);
    }
  }

  /** Remapping never changes an element's storage kind. */
  lemma {:induction false} RemapKeepsKind(v: Scalar, pairs: Dict<int, int>)
    ensures RemapValue(v, pairs).BoolS? == v.BoolS?
    ensures RemapValue(v, pairs).IntS? == v.IntS?
    ensures RemapValue(v, pairs).FloatS? == v.FloatS?
    decreases |pairs|
  {
    if |pairs| > 0 {
      RemapKeepsKind(Subst(v, pairs[0].0, pairs[0].1), pairs[1..]);
    }
  }

  /** Rewriting one field keeps every value fitting its field's type: a
      boolean field stays boolean (the written value is cast), and so on. */
  lemma RemapFieldKeepsTyped(g: Group, variable: string, pairs: Dict<int, int>)
    requires WellFormedGroup(g) && Typed(g)
    ensures Typed(RemapField(g, variable, pairs))
  {
    var r := RemapField(g, variable, pairs);
    forall i, j | 0 <= i < |r.schema| && i < |r.columns| && 0 <= j < |r.columns[i]|
      ensures KindAgrees(r.schema[i].dtype, r.columns[i][j])
    {
      if g.schema[i].name == variable {
        RemapKeepsKind(g.columns[i][j], pairs);
      }
    }
  }

  lemma {:induction false} RemapGroupKeepsTyped(fields: Dict<string, Dict<int, int>>, g: Group)
    requires WellFormedGroup(g) && Typed(g)
    ensures Typed(RemapGroup(fields, g))
  {
    if |fields| > 0 {
      var (variable, pairs) := fields[0];
      RemapFieldKeepsTyped(g, variable, pairs);
      RemapGroupKeepsTyped(fields[1..], RemapField(g, variable, pairs));
    }
  }

  /** `map_ints` keeps every stored value fitting its field's type. */
  lemma {:induction false} MapIntsKeepsTyped(table: IntTables, b: Batch)
    requires WellFormed(b) && TypedBatch(b)
    ensures TypedBatch(MapInts(table, b))
  {
    if |table| > 0 {
      var (group, fields) := table[0];
      if group in b {
        RemapGroupKeepsTyped(fields, b[group]);
        MapIntsKeepsTyped(table[1..], b[group := RemapGroup(fields, b[group])]);
      } else {
        MapIntsKeepsTyped(table[1..], b);
      }
    }
  }

  /** The single-pass substitution: each element is rewritten by the first
      pair whose key it matches, and by no other. */
  function SinglePass(v: Scalar, pairs: Dict<int, int>): Scalar
    decreases |pairs|
  {
    if |pairs| == 0 then v
    else if Matches(v, pairs[0].0) then Store(v, pairs[0].1)
    else SinglePass(v, pairs[1..])
  }

  /** No pair writes a value that a later pair's key would match again. */
  predicate ChainFree(pairs: Dict<int, int>) {
    forall i, j :: 0 <= i < j < |pairs| ==> pairs[i].1 != pairs[j].0
  }

  /** On a chain-free table the sequential loop of `map_ints` and the
      single-pass substitution agree on integer and float elements. */
  lemma {:induction false} ChainFreeAgrees(v: Scalar, pairs: Dict<int, int>)
    requires !v.BoolS?
    requires ChainFree(pairs)
    ensures RemapValue(v, pairs) == SinglePass(v, pairs)
    decreases |pairs|
  {
    if |pairs| > 0 {
      var rest := pairs[1..];
      assert forall i :: 0 <= i < |rest| ==> rest[i] == pairs[i + 1];
      if Matches(v, pairs[0].0) {
        var w := Store(v, pairs[0].1);
        forall i | 0 <= i < |rest| ensures !Matches(w, rest[i].0) {
          assert pairs[0].1 != pairs[i + 1].0;
        }
        UnmatchedUnchanged(w, rest);
      } else {
        ChainFreeAgrees(v, rest);
      }
    }
  }

  /** The two differ as soon as a pair's new value is a later pair's key:
      with `{1: 2, 2: 3}` `map_ints` sends 1 to 3, not to 2. */
  lemma ChainingDiffersFromSinglePass()
    ensures RemapValue(IntS(1), [(1, 2), (2, 3)]) == IntS(3)
    ensures SinglePass(IntS(1), [(1, 2), (2, 3)]) == IntS(2)
  {
  }

  /** After a single pair `{a: b}` with `a != b`, a column element still
      equals `a` only where a boolean `True` was written back as `True`
      (`a == 1`, `b` nonzero). */
  lemma SinglePairRemovesKey(col: seq<Scalar>, a: int, b: int)
    requires a != b
    ensures forall j :: 0 <= j < |col| ==>
              (Matches(RemapColumn(col, [(a, b)])[j], a) <==> col[j] == BoolS(true) && a == 1 && b != 0)
  {
    forall j | 0 <= j < |col|
      ensures Matches(RemapColumn(col, [(a, b)])[j], a) <==> col[j] == BoolS(true) && a == 1 && b != 0
    {
      assert RemapValue(col[j], [(a, b)]) == Subst(col[j], a, b);
    }
  }
}

=== FILE: rename.dfy ===
/** Field renaming: `Transform.map_dtype`, `Transform.map_variables` and the
    name-translation helper `Transform.map_variable_names`. */
module Rename {
  import opened Results
  import opened Dicts
  import opened Batches
  import opened Config

  /** `name.lstrip("/")`: every leading slash removed. */
  function StripSlashes(s: string): (r: string)
    ensures |r| <= |s| && r == s[|s| - |r|..]
    ensures forall j :: 0 <= j < |s| - |r| ==> s[j] == '/'
    ensures |r| == 0 || r[0] != '/'
    decreases |s|
  {
    if |s| > 0 && s[0] == '/' then StripSlashes(s[1..]) else s
  }

  /** The rename table of a group, looked up under its name without leading
      slashes; a missing table is empty, like the `not map_dict` test of
      `map_dtype`, which treats `None` and `{}` alike. */
  function TableFor(tables: RenameTables, name: string): Dict<string, string> {
    GetOr(tables, StripSlashes(name), [])
  }

  /** `map_dict.get(name, name)` */
  function Translate(m: Dict<string, string>, n: string): string {
    GetOr(m, n, n)
  }

  /** Both names of a pair are fields of the dtype. */
  predicate Collides(pair: (string, string), schema: seq<Spec>) {
    HasField(schema, pair.0) && HasField(schema, pair.1)
  }

  /** The collision loop of `map_dtype`: the first pair, in table order,
      whose two names both exist. */
  function FirstCollision(m: Dict<string, string>, schema: seq<Spec>): (r: Option<nat>)
    ensures r.None? <==> forall i :: 0 <= i < |m| ==> !Collides(m[i], schema)
    ensures r.Some? ==> r.value < |m| && Collides(m[r.value], schema)
    ensures r.Some? ==> forall i :: 0 <= i < r.value ==> !Collides(m[i], schema)
  {
    if |m| == 0 then None
    else if Collides(m[0], schema) then Some(0)
    else
      assert forall i :: 0 < i < |m| ==> m[i] == m[1..][i - 1];
      match FirstCollision(m[1..], schema)
      case None => None
      case Some(i) => Some(i + 1)
  }

  /** `np.dtype([(map_dict.get(name, name), dtype[name]) for name in names])`
      before numpy checks the names. */
  function RenameSchema(m: Dict<string, string>, schema: seq<Spec>): seq<Spec> {
    seq(|schema|, i requires 0 <= i < |schema| => Spec(Translate(m, schema[i].name), schema[i].dtype))
  }

  /** `Transform.map_dtype`.  A group without a table, or with an empty one,
      keeps its dtype.  Otherwise a pair whose two names both exist is a
      collision, reported for the first such pair; and a renamed dtype in
      which a name occurs twice is rejected as numpy's dtype constructor
      rejects it. */
  function MapDtype(vm: RenameTables, name: string, schema: seq<Spec>): (r: Result<seq<Spec>, Error>)
    ensures |TableFor(vm, name)| == 0 ==> r == Ok(schema)
    ensures r.Ok? ==> |r.value| == |schema|
    ensures r.Ok? && DistinctNames(schema) ==> DistinctNames(r.value)
    ensures r.Ok? ==> forall i :: 0 <= i < |schema| ==>
              r.value[i].dtype == schema[i].dtype && r.value[i].name == Translate(TableFor(vm, name), schema[i].name)
    ensures r.Err? ==> r.error.Collision? || r.error == DuplicateName(name)
  {
    var table := Get(vm, StripSlashes(name));
    if table.None? || |table.value| == 0 then
      Ok(schema)
    else
      var m := table.value;
      match FirstCollision(m, schema)
      case Some(i) => Err(Collision(m[i].0, m[i].1, name))
      case None =>
        var renamed := RenameSchema(m, schema);
        if DistinctNames(renamed) then Ok(renamed) else Err(DuplicateName(name))
  }

  /** Renaming fails with a collision exactly when some pair of the group's
      table has both names present; the error names the first such pair and
      the group. */
  lemma MapDtypeCollision(vm: RenameTables, name: string, schema: seq<Spec>)
    ensures var r := MapDtype(vm, name, schema);
            (r.Err? && r.error.Collision?) <==> exists i :: 0 <= i < |TableFor(vm, name)| && Collides(TableFor(vm, name)[i], schema)
    ensures var r := MapDtype(vm, name, schema);
            r.Err? && r.error.Collision? ==>
              exists i :: 0 <= i < |TableFor(vm, name)| && Collides(TableFor(vm, name)[i], schema) &&
                          TableFor(vm, name)[i] == (r.error.oldName, r.error.newName) && r.error.group == name &&
                          forall j :: 0 <= j < i ==> !Collides(TableFor(vm, name)[j], schema)
  {
  }

  /** With an injective table, renaming a dtype fails only on a collision:
      two fields can end up with one name only if both are renamed to it
      (ruled out by injectivity) or one is renamed onto the other's name
      (a collision). */
  lemma InjectiveRenameSucceeds(vm: RenameTables, name: string, schema: seq<Spec>)
    requires DistinctNames(schema) && Injective(TableFor(vm, name))
    requires forall i :: 0 <= i < |TableFor(vm, name)| ==> !Collides(TableFor(vm, name)[i], schema)
    ensures MapDtype(vm, name, schema).Ok?
  {
    var m := TableFor(vm, name);
    var renamed := RenameSchema(m, schema);
    forall i, j | 0 <= i < j < |renamed| ensures renamed[i].name != renamed[j].name {
      var a, c := schema[i].name, schema[j].name;
      GetHits(m, a);
      GetHits(m, c);
      if Get(m, a).Some? && Get(m, c).Some? {
        var k :| 0 <= k < |m| && m[k] == (a, Get(m, a).value);
        var l :| 0 <= l < |m| && m[l] == (c, Get(m, c).value);
        assert k != l;
      } else if Get(m, a).Some? {
        var k :| 0 <= k < |m| && m[k] == (a, Get(m, a).value);
        assert schema[i].name == a && schema[j].name == c;
        assert !Collides(m[k], schema);
      } else if Get(m, c).Some? {
        var l :| 0 <= l < |m| && m[l] == (c, Get(m, c).value);
        assert schema[i].name == a && schema[j].name == c;
        assert !Collides(m[l], schema);
      }
    }
  }

  /** `g` is `h` with at most its field names changed: the same values, the
      same number of fields, each of the same type. */
  predicate Renamed(g: Group, h: Group) {
    && g.columns == h.columns && g.count == h.count
    && |g.schema| == |h.schema|
    && forall i :: 0 <= i < |h.schema| ==> g.schema[i].dtype == h.schema[i].dtype
  }

  /** `r` is `b` with at most field names changed, group by group. */
  predicate RenamedBatch(r: Batch, b: Batch) {
    r.Keys == b.Keys && forall g :: g in b ==> Renamed(r[g], b[g])
  }

  lemma RenamedBatchTransitive(x: Batch, y: Batch, z: Batch)
    requires RenamedBatch(x, y) && RenamedBatch(y, z)
    ensures RenamedBatch(x, z)
  {
  }

  /** One step of `map_variables`: the dtype of `group` renamed by
      `map_dtype`, its record values carried over by position, as `astype`
      between structured dtypes does. */
  function RenameGroup(vm: RenameTables, group: string, b: Batch): (r: Result<Batch, Error>)
    requires WellFormed(b) && group in b
    ensures r.Ok? ==> WellFormed(r.value) && RenamedBatch(r.value, b)
    ensures r.Ok? ==> forall g :: g in b && g != group ==> r.value[g] == b[g]
    ensures r.Err? ==> r.error.Collision? || r.error.DuplicateName?
  {
    match MapDtype(vm, group, b[group].schema)
    case Err(e) => Err(e)
    case Ok(s) => Ok(b[group := b[group].(schema := s)])
  }

  /** The loop of `map_variables` over the groups still to visit, `pending`
      (a suffix of `vm`); groups the batch lacks are skipped. */
  function MapVariablesOver(vm: RenameTables, pending: RenameTables, b: Batch): (r: Result<Batch, Error>)
    requires WellFormed(b)
    ensures r.Ok? ==> WellFormed(r.value) && RenamedBatch(r.value, b)
    ensures r.Ok? ==> forall g :: g in b && !HasKey(pending, g) ==> r.value[g] == b[g]
    ensures r.Err? ==> r.error.Collision? || r.error.DuplicateName?
  {
    if |pending| == 0 then Ok(b)
    else
      var group := pending[0].0;
      HasKeyTail(pending);
      if group !in b then MapVariablesOver(vm, pending[1..], b)
      else
        match RenameGroup(vm, group, b)
        case Err(e) => Err(e)
        case Ok(b') =>
          var r := MapVariablesOver(vm, pending[1..], b');
          if r.Ok? then RenamedBatchTransitive(r.value, b', b); r else r
  }

  /** `Transform.map_variables`: the groups of the rename table, in order. */
  function MapVariables(vm: RenameTables, b: Batch): (r: Result<Batch, Error>)
    requires WellFormed(b)
    ensures r.Ok? ==> WellFormed(r.value) && r.value.Keys == b.Keys
    ensures r.Ok? ==> forall g :: g in b && !HasKey(vm, g) ==> r.value[g] == b[g]
  {
    MapVariablesOver(vm, vm, b)
  }

  /** Renaming keeps every stored value fitting its field's type. */
  lemma MapVariablesKeepsTyped(vm: RenameTables, b: Batch)
    requires WellFormed(b) && TypedBatch(b) && MapVariables(vm, b).Ok?
    ensures TypedBatch(MapVariables(vm, b).value)
  {
    var r := MapVariables(vm, b).value;
    forall g | g in r ensures Typed(r[g]) {
      assert Renamed(r[g], b[g]);
    }
  }

  /** Each group the table names is renamed exactly as `MapDtype` renames it
      on its own: visiting the groups one after another does not interfere. */
  lemma {:induction false} MapVariablesOverRenames(vm: RenameTables, pending: RenameTables, b: Batch)
    requires WellFormed(b) && IsDict(pending)
    requires MapVariablesOver(vm, pending, b).Ok?
    ensures forall g :: g in b && HasKey(pending, g) ==>
              MapDtype(vm, g, b[g].schema).Ok? &&
              MapVariablesOver(vm, pending, b).value[g].schema == MapDtype(vm, g, b[g].schema).value
  {
    if |pending| > 0 {
      var group := pending[0].0;
      var rest := pending[1..];
      IsDictTail(pending);
      var b' := if group in b then b[group := b[group].(schema := MapDtype(vm, group, b[group].schema).value)] else b;
      assert MapVariablesOver(vm, pending, b) == MapVariablesOver(vm, rest, b');
      MapVariablesOverRenames(vm, rest, b');
      forall g | g in b && HasKey(pending, g)
        ensures MapDtype(vm, g, b[g].schema).Ok?
        ensures MapVariablesOver(vm, pending, b).value[g].schema == MapDtype(vm, g, b[g].schema).value
      {
        if g != group {
          var a :| 0 <= a < |pending| && pending[a].0 == g;
          assert rest[a - 1].0 == g;
        }
      }
    }
  }

  /** A collision in any group the table names and the batch holds aborts
      the whole call. */
  lemma CollisionAborts(vm: RenameTables, b: Batch, g: string)
    requires WellFormed(b) && IsDict(vm)
    requires g in b && HasKey(vm, g)
    requires exists i :: 0 <= i < |TableFor(vm, g)| && Collides(TableFor(vm, g)[i], b[g].schema)
    ensures MapVariables(vm, b).Err?
  {
    if MapVariablesOver(vm, vm, b).Ok? {
      MapVariablesOverRenames(vm, vm, b);
      MapDtypeCollision(vm, g, b[g].schema);
    }
  }

  /** `Transform.map_variable_names`: each name translated through the
      forward table of the group (or, with `inverse`, through the inverse
      table); names the table does not mention pass through.  Without a
      table, or with an empty one, the list comes back as it was. */
  function MapVariableNames(t: Transform, name: string, vars: seq<string>, inverse: bool): (r: seq<string>)
    ensures |r| == |vars|
    ensures forall i :: 0 <= i < |vars| ==>
              r[i] == Translate(TableFor(if inverse then t.variableMapInv else t.variableMap, name), vars[i])
    ensures |TableFor(if inverse then t.variableMapInv else t.variableMap, name)| == 0 ==> r == vars
  {
    var tables := if inverse then t.variableMapInv else t.variableMap;
    match Get(tables, StripSlashes(name))
    case None => vars
    case Some(m) =>
      if |m| == 0 then vars
      else seq(|vars|, i requires 0 <= i < |vars| => Translate(m, vars[i]))
  }

  /** The inverse table of a group is the swap of its forward table. */
  lemma InverseTableFor(t: Transform, name: string)
    requires Consistent(t)
    ensures TableFor(t.variableMapInv, name) == Swap(TableFor(t.variableMap, name))
  {
    GetInverted(t.variableMap, StripSlashes(name));
  }

  /** Forward then inverse translation of one name, for an injective table:
      the name comes back exactly when the table renames it or never renames
      anything to it.  A name that is only a rename target passes through
      forward and is then translated to the key renamed to it. */
  lemma TranslateRoundTrip(m: Dict<string, string>, x: string)
    requires IsDict(m) && Injective(m)
    ensures Translate(Swap(m), Translate(m, x)) == x <==> HasKey(m, x) || !HasValue(m, x)
  {
    InverseOfInjective(m);
    GetHits(m, x);
    if HasKey(m, x) {
      var k :| 0 <= k < |m| && m[k].0 == x;
      GetOfDict(m, k);
      assert Get(Swap(m), m[k].1) == Some(m[k].0);
    } else if HasValue(m, x) {
      var k :| 0 <= k < |m| && m[k].1 == x;
      assert Get(Swap(m), m[k].1) == Some(m[k].0);
    } else {
      GetHits(Swap(m), x);
    }
  }

  /** Inverse then forward translation of one name, for an injective table:
      the name comes back exactly when the table renames something to it or
      does not rename it at all. */
  lemma TranslateRoundTripInverseFirst(m: Dict<string, string>, x: string)
    requires IsDict(m) && Injective(m)
    ensures Translate(m, Translate(Swap(m), x)) == x <==> HasValue(m, x) || !HasKey(m, x)
  {
    InverseOfInjective(m);
    GetHits(Swap(m), x);
    if HasValue(m, x) {
      var k :| 0 <= k < |m| && m[k].1 == x;
      GetOfDict(m, k);
      assert Get(Swap(m), m[k].1) == Some(m[k].0);
    } else {
      GetHits(m, x);
      if HasKey(m, x) {
        var k :| 0 <= k < |m| && m[k].0 == x;
        GetOfDict(m, k);
      }
    }
  }

  /** `map_variable_names` forward then with `inverse=True` returns the list
      exactly when every name in it is renamed by the group's table or is
      not a rename target, provided the table is injective. */
  lemma RoundTrip(t: Transform, name: string, vars: seq<string>)
    requires Consistent(t)
    requires IsDict(TableFor(t.variableMap, name)) && Injective(TableFor(t.variableMap, name))
    ensures MapVariableNames(t, name, MapVariableNames(t, name, vars, false), true) == vars <==>
            forall i :: 0 <= i < |vars| ==>
              HasKey(TableFor(t.variableMap, name), vars[i]) || !HasValue(TableFor(t.variableMap, name), vars[i])
  {
    var m := TableFor(t.variableMap, name);
    InverseTableFor(t, name);
    var back := MapVariableNames(t, name, MapVariableNames(t, name, vars, false), true);
    forall i | 0 <= i < |vars|
      ensures back[i] == vars[i] <==> HasKey(m, vars[i]) || !HasValue(m, vars[i])
    {
      TranslateRoundTrip(m, vars[i]);
    }
    if back != vars {
      var i :| 0 <= i < |vars| && back[i] != vars[i];
    }
  }

  /** `map_variable_names` with `inverse=True` then forward returns the list
      exactly when every name in it is a rename target of the group's table
      or is not renamed by it, provided the table is injective. */
  lemma RoundTripInverseFirst(t: Transform, name: string, vars: seq<string>)
    requires Consistent(t)
    requires IsDict(TableFor(t.variableMap, name)) && Injective(TableFor(t.variableMap, name))
    ensures MapVariableNames(t, name, MapVariableNames(t, name, vars, true), false) == vars <==>
            forall i :: 0 <= i < |vars| ==>
              HasValue(TableFor(t.variableMap, name), vars[i]) || !HasKey(TableFor(t.variableMap, name), vars[i])
  {
    var m := TableFor(t.variableMap, name);
    InverseTableFor(t, name);
    var back := MapVariableNames(t, name, MapVariableNames(t, name, vars, true), false);
    forall i | 0 <= i < |vars|
      ensures back[i] == vars[i] <==> HasValue(m, vars[i]) || !HasKey(m, vars[i])
    {
      TranslateRoundTripInverseFirst(m, vars[i]);
    }
    if back != vars {
      var i :| 0 <= i < |vars| && back[i] != vars[i];
    }
  }

  /** `map_dtype` and `map_variable_names` rename through the same table:
      the names of a renamed dtype are the forward translation of its names. */
  lemma DtypeAgreesWithNames(t: Transform, name: string, schema: seq<Spec>)
    requires MapDtype(t.variableMap, name, schema).Ok?
    ensures Names(MapDtype(t.variableMap, name, schema).value) == MapVariableNames(t, name, Names(schema), false)
  {
  }
}

=== FILE: results.dfy ===
/** `Option` is the answer of a Python `dict.get` that may miss.  `Result`
    is a stage's outcome: the value it returns, or the exception the Python
    code would raise.  `Result` supports `:-`, so the first error of a
    sequence of steps is the one returned. */
module Results {

  datatype Option<+T> = None | Some(value: T)

  datatype Result<+T, +E> = Ok(value: T) | Err(error: E) {

    predicate IsFailure() {
      Err?
    }

    function PropagateFailure<U>(): Result<U, E>
      requires Err?
    {
      Err(error)
    }

    function Extract(): T
      requires Ok?
    {
      value
    }
  }
}

=== FILE: scenarios.dfy ===
/** Worked examples of the pipeline stages on small batches. */
module Scenarios {
  import opened Results
  import opened Batches
  import opened IntRemap
  import opened Insert
  import opened Rename

  /** `{"flavor": {1: 5, 2: 6}}` turns `[0, 1, 2]` into `[0, 5, 6]`. */
  lemma FlavorRemap()
    ensures RemapColumn([IntS(0), IntS(1), IntS(2)], [(1, 5), (2, 6)]) == [IntS(0), IntS(5), IntS(6)]
  {
    assert RemapValue(IntS(1), [(1, 5), (2, 6)]) == IntS(5);
    assert RemapValue(IntS(2), [(1, 5), (2, 6)]) == IntS(6);
  }

  /** A group lacking `is_signal` gains it as a `b1` field, all `False`,
      with the same records as before. */
  lemma InsertIsSignal()
    ensures var jets := Group([Spec("pt", F4)], [[FloatS(1.0), FloatS(2.0)]], 2);
            InsertVariables([("jets", [("is_signal", PyBool(false))])], map["jets" := jets]) ==
              Ok(map["jets" := Group([Spec("pt", F4), Spec("is_signal", B1)],
                                     [[FloatS(1.0), FloatS(2.0)], [BoolS(false), BoolS(false)]], 2)])
  {
    var jets := Group([Spec("pt", F4)], [[FloatS(1.0), FloatS(2.0)]], 2);
    var ins := [("is_signal", PyBool(false))];
    assert !HasField(jets.schema, "is_signal") by {
      assert jets.schema[0].name == "pt";
    }
    var h := AppendField(jets, "is_signal", B1, BoolS(false));
    assert h.columns[1] == [BoolS(false), BoolS(false)] by {
      assert |h.columns[1]| == 2;
      assert h.columns[1][0] == BoolS(false) && h.columns[1][1] == BoolS(false);
    }
    assert InsertGroup(ins, jets) == InsertGroup(ins[1..], h);
    assert ins[1..] == [];
    assert h == Group([Spec("pt", F4), Spec("is_signal", B1)],
                      [[FloatS(1.0), FloatS(2.0)], [BoolS(false), BoolS(false)]], 2);
    assert map["jets" := jets]["jets" := h] == map["jets" := h];
  }

  /** Renaming `pt` to `pT` in a group that already has both fields is a
      collision for that group. */
  lemma RenameCollision()
    ensures var tracks := Group([Spec("pt", F4), Spec("pT", F4)], [[], []], 0);
            MapVariables([("tracks", [("pt", "pT")])], map["tracks" := tracks]) ==
              Err(Collision("pt", "pT", "tracks"))
  {
    var tracks := Group([Spec("pt", F4), Spec("pT", F4)], [[], []], 0);
    assert tracks.schema[0].name == "pt" && tracks.schema[1].name == "pT";
    assert StripSlashes("tracks") == "tracks";
  }
}
